=== FILE: README.md ===
# civix `generate:test` in Dafny

This project models the test-scaffolding command of civix, the CiviCRM
extension generator (`AddTestCommand`). Given the extension's declared type,
a fully qualified test class name and a template keyword, the command

1. refuses to do anything but print `Wrong extension type: …` unless the
   extension is a `module`;
2. saves `phpunit.xml.dist` at the extension root unless that path exists;
3. ensures `tests/phpunit` and renders `tests/phpunit/bootstrap.php` unless
   that path exists;
4. looks the template keyword up in a closed table of three entries
   (`e2e`, `headless`, `legacy`), raising `Invalid test template` otherwise;
5. trims backslashes off the class name, requires `[A-Za-z0-9_\]+` and the
   suffix `Test`, splits the name into namespace and short class, maps it to
   `tests/phpunit/<name with _ and \ turned into />.php`, ensures that file's
   directory and renders the test unless the file exists. In that case it
   prints an error-tagged skip line instead of overwriting it.

The model is functional. The file system is an immutable value: a map of
files to contents plus a set of directories. The console is an append-only
list of report lines. Each step is a function from one state to the next.

| file | module | what it holds |
|---|---|---|
| `results.dfy` | `Results` | `Result`, the three exceptions and their messages |
| `php_strings.dfy` | `PhpStrings` | `trim`, suffix test, `explode`/`implode` and their round trips |
| `paths.dfy` | `Paths` | `Path::string` joining, PHP `dirname` |
| `class_names.dfy` | `ClassNames` | name validation, namespace split, test file mapping |
| `templates.dfy` | `Templates` | the template table |
| `workspace.dfy` | `Workspace` | file system, `file_exists`, report lines |
| `add_test.dfy` | `AddTest` | the command's steps and the properties of whole runs |
| `scenarios.dfy` | `Scenarios` | concrete runs on an extension at `/ext` |

Notes on the command's behaviour:

- The code's template table has no `default` entry. Its exception message
  does not name the rejected keyword.
- The template keyword is looked up before the class name is validated. The
  lookup is an argument of the `initTestClass` call, so PHP evaluates it
  first. Both checks run after the shared files may already have been written.
- An existing `phpunit.xml.dist` or bootstrap is reported with a
  comment-tagged skip line, not silently. Only the bootstrap's directory is
  ensured; `phpunit.xml.dist` is written at the extension root as is.
- `file_exists` is also true for a directory. A path that is a directory
  therefore counts as "already exists" for all three files.

## Model

| member | source | states |
|---|---|---|
| Results.Message | src/CRM/CivixBundle/Command/AddTestCommand.php:112 | the message each exception carries: `Invalid test template` and the two class-name messages (lines 128, 131); it has no contract of its own |
| PhpStrings.TrimLeft | src/CRM/CivixBundle/Command/AddTestCommand.php:125 | the result is a suffix of the input, everything dropped before it is a backslash, and it does not start with one |
| PhpStrings.TrimRight | src/CRM/CivixBundle/Command/AddTestCommand.php:125 | the result is a prefix of the input, everything dropped after it is a backslash, and it does not end with one |
| PhpStrings.TrimmedAtBothEnds | src/CRM/CivixBundle/Command/AddTestCommand.php:125 | stripping the leading backslashes and then the trailing ones leaves a slice bordered only by backslashes that neither starts nor ends with one |
| PhpStrings.Trim | src/CRM/CivixBundle/Command/AddTestCommand.php:125 | `trim($name, '\\')` yields a slice of the name bordered only by backslashes that neither starts nor ends with one |
| PhpStrings.TrimCharacterized | src/CRM/CivixBundle/Command/AddTestCommand.php:125 | `Trim` returns a string if and only if that string is the backslash-free-bordered slice, so the trimmed name is unique |
| PhpStrings.TrimIdempotent | src/CRM/CivixBundle/Command/AddTestCommand.php:125 | trimming an already trimmed name changes nothing |
| PhpStrings.IndexOf | src/CRM/CivixBundle/Command/AddTestCommand.php:134 | the position `explode` cuts at: the first delimiter, with no delimiter before it, or the end of the string |
| PhpStrings.Explode | src/CRM/CivixBundle/Command/AddTestCommand.php:134 | `explode('\\', $name)` yields at least one piece, no piece holds a backslash, and there are two or more pieces exactly when the name holds a backslash |
| PhpStrings.ImplodeExplode | src/CRM/CivixBundle/Command/AddTestCommand.php:134-136 | joining the pieces of a name with backslashes gives the name back |
| PhpStrings.ExplodeImplode | src/CRM/CivixBundle/Command/AddTestCommand.php:134-136 | splitting backslash-free pieces joined with backslashes gives the pieces back |
| PhpStrings.ImplodeSnoc | src/CRM/CivixBundle/Command/AddTestCommand.php:135-136 | a joined list is the join of all but the last piece, a backslash, then the popped last piece |
| PhpStrings.ExplodeWithoutSep | src/CRM/CivixBundle/Command/AddTestCommand.php:134 | a name without a backslash explodes into itself alone |
| PhpStrings.ExplodePiece | src/CRM/CivixBundle/Command/AddTestCommand.php:134 | a backslash-free piece followed by a backslash is split off as the first piece |
| PhpStrings.Implode | src/CRM/CivixBundle/Command/AddTestCommand.php:136 | `implode('\\', $parts)`; it has no contract of its own and is characterised together with `Explode` by `PhpStrings.ImplodeExplode`, `PhpStrings.ExplodeImplode` and `PhpStrings.ImplodeSnoc` |
| Paths.Join | src/CRM/CivixBundle/Command/AddTestCommand.php:64-65 | `Path::string` with its segments; it has no contract of its own and is characterised by `Paths.JoinLast`, `Paths.JoinOne` and `Paths.JoinThree` |
| Paths.JoinLast | src/CRM/CivixBundle/Command/AddTestCommand.php:138 | joining one more segment appends `/` and the segment |
| Paths.JoinOne | src/CRM/CivixBundle/Command/AddTestCommand.php:64 | `$basedir->string('phpunit.xml.dist')` is the base, `/`, the file name |
| Paths.JoinThree | src/CRM/CivixBundle/Command/AddTestCommand.php:65 | `$basedir->string('tests', 'phpunit', $f)` is the base and the three segments, each after a `/` |
| Paths.StripName | src/CRM/CivixBundle/Command/AddTestCommand.php:89 | the step of `dirname` that drops the last name: the result is a prefix of the input, everything dropped is a non-slash character, and a non-empty result ends with a slash |
| Paths.Dirname | src/CRM/CivixBundle/Command/AddTestCommand.php:89 | `dirname` returns `.` or a prefix of the path; a non-empty path has a non-empty directory; a non-empty path without a slash has the directory `.`; `Paths.DirnameOfChild` and `Paths.DirnameOfChildRuns` fix its result for a path that ends in a leaf name |
| Paths.DirnameOfChild | src/CRM/CivixBundle/Command/AddTestCommand.php:89 | `dirname(d/leaf)` is `d` for a plain leaf name and a `d` without a trailing slash |
| Paths.DirnameOfChildRuns | src/CRM/CivixBundle/Command/AddTestCommand.php:141 | `dirname` of `d`, one or more slashes, a plain leaf name and any trailing slashes is `d`, for a `d` without a trailing slash; so a test path with a doubled slash such as `…/Foo//BarTest.php` has the directory `…/Foo` |
| Paths.TrimRightSlashes | src/CRM/CivixBundle/Command/AddTestCommand.php:141 | the first step of `dirname` removes exactly the trailing run of slashes after a non-slash character |
| Paths.StripNameLeaf | src/CRM/CivixBundle/Command/AddTestCommand.php:141 | the middle step of `dirname` removes exactly a slash-free leaf name after a slash |
| Paths.DirnameShorter | src/CRM/CivixBundle/Command/AddTestCommand.php:141 | the directory of a path that has a slash and does not end in one is strictly shorter than the path |
| ClassNames.CheckClassName | src/CRM/CivixBundle/Command/AddTestCommand.php:125-132 | a name is accepted iff, once trimmed of backslashes, it is non-empty, all in `[A-Za-z0-9_\]` and ends with `Test`; the accepted value is the trimmed name; an empty name or a bad character raises the alphanumeric error, a clean name without the suffix raises the suffix error |
| ClassNames.SplitClassName | src/CRM/CivixBundle/Command/AddTestCommand.php:134-136 | `testClass` holds no backslash; with a backslash in the name, `testNamespace + '\' + testClass` is the name; without one, the namespace is empty and the class is the whole name (underscores are not split) |
| ClassNames.LastSeparatorUnique | src/CRM/CivixBundle/Command/AddTestCommand.php:134-136 | a string has only one way to be written as a prefix, a backslash and a backslash-free rest |
| ClassNames.SplitJoined | src/CRM/CivixBundle/Command/AddTestCommand.php:134-136 | a namespace and a backslash-free short name joined by a backslash split back into exactly those two parts |
| ClassNames.SuffixAfterSeparator | src/CRM/CivixBundle/Command/AddTestCommand.php:130-136 | a backslash-free suffix of a name is also a suffix of the part after its last backslash |
| ClassNames.SplitKeepsSuffix | src/CRM/CivixBundle/Command/AddTestCommand.php:130-135 | the short class name of an accepted name still ends with `Test` |
| ClassNames.TestFile | src/CRM/CivixBundle/Command/AddTestCommand.php:137 | the test file name is the class name with every `_` and every backslash replaced by `/` and every other character kept in place, followed by `.php`; so it is four characters longer and holds no `_` and no backslash |
| ClassNames.TestFileCollision | src/CRM/CivixBundle/Command/AddTestCommand.php:137 | two slash-free names get the same test file name (the `strtr` result) exactly when they differ only by `_` versus backslash |
| Templates.TestTemplate | src/CRM/CivixBundle/Command/AddTestCommand.php:102-114 | the lookup succeeds exactly for `e2e`, `headless` and `legacy`, yields `test-<keyword>.php.php`, and otherwise raises `Invalid test template` |
| Templates.TestTemplateInjective | src/CRM/CivixBundle/Command/AddTestCommand.php:103-107 | no two keywords select the same template |
| Workspace.EnsureDir | src/CRM/CivixBundle/Command/AddTestCommand.php:140-143 | `Dirs::save` leaves the directory existing, keeps every file and directory, adds nothing else, and changes nothing when the directory already exists |
| Workspace.Exists | src/CRM/CivixBundle/Command/AddTestCommand.php:76 | `file_exists` is true for a file and for a directory alike; it is a predicate with no contract of its own |
| Workspace.PutFile | src/CRM/CivixBundle/Command/AddTestCommand.php:94-95 | `file_put_contents`; it has no contract of its own, and its effect is stated by the ensures of `AddTest.InitPhpunitXml`, `AddTest.InitPhpunitBootstrap` and `AddTest.WriteTestClass` (also lines 147-148) |
| Workspace.Text | src/CRM/CivixBundle/Command/AddTestCommand.php:60 | the console text of each report line: `<error>Wrong extension type: …</error>`, `<info>Write …</info>`, and the skip line tagged `<comment>` or `<error>` (lines 82, 93, 98, 146, 151); it has no contract of its own |
| AddTest.TestPathShape | src/CRM/CivixBundle/Command/AddTestCommand.php:138-145 | the test path has a directory part strictly shorter than itself, so ensuring that directory cannot make the test file look present |
| AddTest.OutputPathsSpelledOut | src/CRM/CivixBundle/Command/AddTestCommand.php:64-65 | `phpunit.xml.dist` is `<base>/phpunit.xml.dist`, the bootstrap is `<base>/tests/phpunit/bootstrap.php` and the test is `<base>/tests/phpunit/<test file>` |
| AddTest.UnderTests | src/CRM/CivixBundle/Command/AddTestCommand.php:138 | `$basedir->string('tests', 'phpunit', $f)` is `<base>/tests/phpunit/<f>` |
| AddTest.PhpunitXmlPath | src/CRM/CivixBundle/Command/AddTestCommand.php:64 | the XML path; it has no contract of its own and `AddTest.OutputPathsSpelledOut` spells it out |
| AddTest.BootstrapPath | src/CRM/CivixBundle/Command/AddTestCommand.php:65 | the bootstrap path; it has no contract of its own and `AddTest.OutputPathsSpelledOut` spells it out |
| AddTest.TestPath | src/CRM/CivixBundle/Command/AddTestCommand.php:138 | the test path; it has no contract of its own and `AddTest.OutputPathsSpelledOut` spells it out |
| AddTest.TestContext | src/CRM/CivixBundle/Command/AddTestCommand.php:135-136 | the render context gains exactly the keys `testClass` and `testNamespace`, holding the two parts of the split name, and every other key keeps its value |
| AddTest.InitPhpunitXml | src/CRM/CivixBundle/Command/AddTestCommand.php:75-84 | `phpunit.xml.dist` exists afterwards; an existing path leaves the file system unchanged and adds one comment-tagged skip line; otherwise only that file is added, with the builder's content, and one Write line |
| AddTest.InitPhpunitBootstrap | src/CRM/CivixBundle/Command/AddTestCommand.php:86-100 | the bootstrap exists afterwards; an existing path leaves the file system unchanged and adds one comment-tagged skip line; otherwise its directory is ensured, the rendered bootstrap is the only new file, and one Write line is added |
| AddTest.InitTestClass | src/CRM/CivixBundle/Command/AddTestCommand.php:124-132 | it raises exactly the name check's error; on success the trimmed name was valid and is the name handed to `AddTest.WriteTestClass` |
| AddTest.WriteTestClass | src/CRM/CivixBundle/Command/AddTestCommand.php:134-152 | the test directory is ensured whether or not the file exists and is the only directory added; an existing file is never overwritten and yields an error-tagged skip line; a missing one gets the template rendered with `testClass`/`testNamespace` added to the context, and one Write line |
| AddTest.InitSharedFiles | src/CRM/CivixBundle/Command/AddTestCommand.php:64-65 | the two shared steps keep every existing file and only append to the report; both shared files exist afterwards; no file but `phpunit.xml.dist` and the bootstrap is added, and no directory but the bootstrap's |
| AddTest.TestClassStep | src/CRM/CivixBundle/Command/AddTestCommand.php:67 | the `initTestClass` call keeps every file and only appends to the report; it raises exactly when the name is invalid, never with the template error, and then leaves the state as it was |
| AddTest.TemplateThenTestClass | src/CRM/CivixBundle/Command/AddTestCommand.php:66-67 | the template lookup and the test step keep every file and only append to the report; `Invalid test template` is raised iff the keyword is unknown, a name error iff it is known and the name is invalid; a raising step leaves the state as it was |
| AddTest.Execute | src/CRM/CivixBundle/Command/AddTestCommand.php:51-68 | a non-module extension gets one error line and no change; files are never removed or overwritten and the report only grows; the run raises `Invalid test template` iff the keyword is unknown, a name error iff the keyword is known and the name is invalid; a raising run ends right after the shared files; both shared files exist after any module run |
| AddTest.RunAddsOnlyOutputs | src/CRM/CivixBundle/Command/AddTestCommand.php:64-67 | a run from any state adds no file but `phpunit.xml.dist`, the bootstrap and the test file, and no directory but the bootstrap's and the test file's |
| AddTest.OutputPathsDistinct | src/CRM/CivixBundle/Command/AddTestCommand.php:64-65 | `phpunit.xml.dist`, the bootstrap and an accepted test class are three different paths |
| AddTest.BootstrapDirShorterThanTests | src/CRM/CivixBundle/Command/AddTestCommand.php:88-89 | for any base, the bootstrap's directory is `tests/phpunit` under the base, shorter than any test file path |
| AddTest.SharedFilesFresh | src/CRM/CivixBundle/Command/AddTestCommand.php:75-100 | with neither shared file present, both are written in order with a Write line each and only `tests/phpunit` is added as a directory |
| AddTest.ReturnedRunLeavesTestFile | src/CRM/CivixBundle/Command/AddTestCommand.php:124-153 | a module run that returns normally had a valid name and leaves the test file and its directory in place |
| AddTest.TestClassFresh | src/CRM/CivixBundle/Command/AddTestCommand.php:138-152 | with a valid name and no test file yet, the test step adds exactly that file and one Write line |
| AddTest.FirstRunCreatesAll | src/CRM/CivixBundle/Command/AddTestCommand.php:64-67 | for any base, on an extension holding none of the three files, a valid run creates exactly those three files and reports three Write lines in order |
| AddTest.SharedFilesRepeat | src/CRM/CivixBundle/Command/AddTestCommand.php:76-99 | on a state where both shared files exist, the shared steps only add two comment-tagged skip lines |
| AddTest.SecondRunChangesNothing | src/CRM/CivixBundle/Command/AddTestCommand.php:51-153 | repeating a run with the same arguments ends the same way, leaves the file system identical and only reports skips (or the same type error) |
| Scenarios.XmlPathAtBase | src/CRM/CivixBundle/Command/AddTestCommand.php:64 | for `/ext` the XML file is `/ext/phpunit.xml.dist` |
| Scenarios.BootstrapPathAtBase | src/CRM/CivixBundle/Command/AddTestCommand.php:65 | for `/ext` the bootstrap is `/ext/tests/phpunit/bootstrap.php` in `/ext/tests/phpunit` |
| Scenarios.Psr0NameAccepted | src/CRM/CivixBundle/Command/AddTestCommand.php:125-132 | `CRM_Foo_BarTest` is accepted unchanged |
| Scenarios.Psr0NameMapped | src/CRM/CivixBundle/Command/AddTestCommand.php:134-138 | `CRM_Foo_BarTest` has an empty namespace and maps to `/ext/tests/phpunit/CRM/Foo/BarTest.php` |
| Scenarios.NamespacedNameSplit | src/CRM/CivixBundle/Command/AddTestCommand.php:134-136 | `Civi\Foo\BarTest` splits into `Civi\Foo` and `BarTest` |
| Scenarios.NamespacedFile | src/CRM/CivixBundle/Command/AddTestCommand.php:137 | `Civi\Foo\BarTest` maps to `Civi/Foo/BarTest.php` |
| Scenarios.SpellingsShareTestFile | src/CRM/CivixBundle/Command/AddTestCommand.php:137 | `CRM_Foo_BarTest` and `CRM\Foo\BarTest` map to the same test file |
| Scenarios.SurroundingBackslashesIgnored | src/CRM/CivixBundle/Command/AddTestCommand.php:125 | `\Civi\FooTest\` is accepted as `Civi\FooTest` |
| Scenarios.MissingSuffixRefused | src/CRM/CivixBundle/Command/AddTestCommand.php:130-131 | `FooBar` raises the suffix error |
| Scenarios.FreshSharedFiles | src/CRM/CivixBundle/Command/AddTestCommand.php:64-65 | on an empty `/ext` both shared files are written in order and `tests/phpunit` is created |
| Scenarios.ReportExtensionRefused | src/CRM/CivixBundle/Command/AddTestCommand.php:59-62 | a `report` extension gets one `Wrong extension type` line and no change on disk |
| Scenarios.BadNameAfterSharedFiles | src/CRM/CivixBundle/Command/AddTestCommand.php:64-67 | `FooBar` raises the suffix error only after both shared files are written |
| Scenarios.UnknownTemplateBeforeName | src/CRM/CivixBundle/Command/AddTestCommand.php:66-67 | the keyword `Headless` (wrong case) raises `Invalid test template` before the invalid name is looked at, after the shared files are written |

## Left out

- Console wiring (`configure`, option and argument declarations, help text, lines 16-49). The template keyword is a plain string input. Its default, `headless`, is `Templates.DefaultKeyword`.
- Locating the extension and loading `info.xml` (lines 52-58). The base directory, the declared type and the loaded context are inputs.
- The renderer, the `PhpUnitXML` builder and the `Dirs` and `Path` classes are not part of this model. Rendering and the XML content are opaque functions in `AddTest.Collaborators`. Saving the XML is one file write plus one Write line. `Dirs::save` adds exactly the named directory: no report line, no ancestors. `Path::string` joins with `/`.
- Any changes `PhpUnitXML::init`, `save` or `Dirs::save` make to the context passed by reference. The context reaches the renderer unchanged, apart from the two keys `initTestClass` adds to its own copy.
- Real file system effects and failures (permissions, a full disk, races between processes). Every write and directory creation succeeds.
- ClassNames.CheckClassName: uses exact whole-string and suffix tests. PCRE's `$` also matches before a final newline, so the source also accepts a name such as `FooTest` followed by one newline; the model rejects it.
- Paths.Dirname: models PHP's POSIX `dirname` only. Windows drive letters and backslash separators are not handled.
- Workspace.Exists: paths are compared as strings, with no folding of repeated slashes. The operating system treats `a//b` and `a/b` as one file, so for a name such as `Foo__BarTest` (test file name `Foo//BarTest.php`), `_FooTest` or `Foo\_BarTest` the source finds an existing `Foo/BarTest.php`, `FooTest.php` or `Foo/BarTest.php` and prints the error-tagged skip, while the model writes a second entry and reports a Write line.

=== FILE: add_test.dfy ===
/**
 * The `generate:test` command: after checking that the extension is a
 * module, it creates `phpunit.xml.dist`, `tests/phpunit/bootstrap.php` and
 * the requested test class, each only when that path does not exist yet.
 */
module AddTest {
  import opened Results
  import opened PhpStrings
  import opened Paths
  import opened ClassNames
  import opened Templates
  import opened Workspace

  /** The only extension type the command works on. */
  const ModuleType: string := "module"

  /** The template the bootstrap file is rendered from. */
  const BootstrapTemplate: string := "phpunit-boot-cv.php.php"

  /** The template context: string keys to values. */
  type Context = map<string, string>

  /**
   * The collaborators whose internals are not modelled: the template
   * renderer and the content the `PhpUnitXML` builder saves.
   */
  datatype Collaborators = Collaborators(
    render: (string, Context) -> Content,
    phpunitXml: Context -> Content)

  /** The three outputs, all relative to the extension's base directory. */
  function PhpunitXmlPath(base: Path): Path
  {
    Join(base, ["phpunit.xml.dist"])
  }

  function BootstrapPath(base: Path): Path
  {
    Join(base, ["tests", "phpunit", "bootstrap.php"])
  }

  function TestPath(base: Path, name: string): Path
  {
    Join(base, ["tests", "phpunit", TestFile(name)])
  }

  /** The three outputs spelled out: `Path::string` puts one `/` before each segment. */
  lemma OutputPathsSpelledOut(base: Path, name: string)
    ensures PhpunitXmlPath(base) == base + "/phpunit.xml.dist"
    ensures BootstrapPath(base) == base + "/tests/phpunit/bootstrap.php"
    ensures TestPath(base, name) == base + "/tests/phpunit/" + TestFile(name)
  {
    JoinOne(base, "phpunit.xml.dist");
    UnderTests(base, "bootstrap.php");
    UnderTests(base, TestFile(name));
  }

  /** A file under `tests/phpunit` of the base. */
  lemma UnderTests(base: Path, leaf: string)
    ensures Join(base, ["tests", "phpunit", leaf]) == base + "/tests/phpunit/" + leaf
  {
    JoinThree(base, "tests", "phpunit", leaf);
    var t, p := "tests", "phpunit";
    calc {
      base + [Slash] + t + [Slash] + p + [Slash] + leaf;
      base + ([Slash] + t + [Slash] + p + [Slash]) + leaf;
      base + "/tests/phpunit/" + leaf;
    }
  }

  /** The test file's path has a directory part and does not end in a slash. */
  lemma TestPathShape(base: Path, name: string)
    ensures Slash in TestPath(base, name)
    ensures |Dirname(TestPath(base, name))| < |TestPath(base, name)|
  {
    var segs := ["tests", "phpunit", TestFile(name)];
    JoinLast(base, segs);
    var p := TestPath(base, name);
    var f := TestFile(name);
    assert p[|p| - 1] == f[|f| - 1] == 'p';
    assert p[|p| - |f| - 1] == Slash;
    DirnameShorter(p);
  }

  /** The context `initTestClass` renders with; the caller's copy is not changed. */
  function TestContext(ctx: Context, name: string): (r: Context)
    ensures r.Keys == ctx.Keys + {"testClass", "testNamespace"}
    ensures r["testClass"] == SplitClassName(name).testClass
    ensures r["testNamespace"] == SplitClassName(name).testNamespace
    ensures forall k :: k in ctx && k != "testClass" && k != "testNamespace" ==> r[k] == ctx[k]
  {
    var parts := SplitClassName(name);
    ctx["testClass" := parts.testClass]["testNamespace" := parts.testNamespace]
  }

  /** `initPhpunitXml`: saves the builder's XML unless the path exists. */
  function InitPhpunitXml(env: Collaborators, path: Path, ctx: Context, st: State): (r: State)
    ensures Extends(st.fs, r.fs) && r.fs.dirs == st.fs.dirs
    ensures Exists(r.fs, path)
    ensures Exists(st.fs, path) ==> r == State(st.fs, st.log + [Skipped(Comment, path)])
    ensures !Exists(st.fs, path) ==>
      && r.fs.files == st.fs.files[path := env.phpunitXml(ctx)]
      && r.log == st.log + [Wrote(path)]
  {
    if !Exists(st.fs, path) then
      State(PutFile(st.fs, path, env.phpunitXml(ctx)), st.log + [Wrote(path)])
    else
      State(st.fs, st.log + [Skipped(Comment, path)])
  }

  /** `initPhpunitBootstrap`: ensures the directory, then renders the bootstrap, unless the path exists. */
  function InitPhpunitBootstrap(env: Collaborators, path: Path, ctx: Context, st: State): (r: State)
    ensures Extends(st.fs, r.fs)
    ensures Exists(r.fs, path)
    ensures Exists(st.fs, path) ==> r == State(st.fs, st.log + [Skipped(Comment, path)])
    ensures !Exists(st.fs, path) ==>
      && r.fs.dirs == st.fs.dirs + {Dirname(path)}
      && r.fs.files == st.fs.files[path := env.render(BootstrapTemplate, ctx)]
      && r.log == st.log + [Wrote(path)]
  {
    if !Exists(st.fs, path) then
      var fs := EnsureDir(st.fs, Dirname(path));
      State(PutFile(fs, path, env.render(BootstrapTemplate, ctx)), st.log + [Wrote(path)])
    else
      State(st.fs, st.log + [Skipped(Comment, path)])
  }

  /**
   * The part of `initTestClass` after the name checks: ensures the test
   * file's directory, then writes the rendered test unless the file exists.
   */
  function WriteTestClass(env: Collaborators, name: string, template: string, base: Path,
                          ctx: Context, st: State): (r: State)
    ensures
      var path := TestPath(base, name);
      && Extends(st.fs, r.fs)
      && r.fs.dirs == st.fs.dirs + {Dirname(path)}
      && Exists(r.fs, path)
      && (Exists(st.fs, path) ==>
            r.fs.files == st.fs.files && r.log == st.log + [Skipped(Error, path)])
      && (!Exists(st.fs, path) ==>
            && r.fs.files == st.fs.files[path := env.render(template, TestContext(ctx, name))]
            && r.log == st.log + [Wrote(path)])
  {
    var path := TestPath(base, name);
    var fs := EnsureDir(st.fs, Dirname(path));
    TestPathShape(base, name);
    if !Exists(fs, path) then
      State(PutFile(fs, path, env.render(template, TestContext(ctx, name))), st.log + [Wrote(path)])
    else
      State(fs, st.log + [Skipped(Error, path)])
  }

  /**
   * `initTestClass`: validates the name, then hands the trimmed name to
   * `WriteTestClass`.
   */
  function InitTestClass(env: Collaborators, rawName: string, template: string, base: Path,
                         ctx: Context, st: State): (r: Result<State, Failure>)
    ensures r.Err? <==> CheckClassName(rawName).Err?
    ensures r.Err? ==> r.error == CheckClassName(rawName).error
    ensures r.Ok? ==>
      && ValidClassName(Trim(rawName, Backslash))
      && r.value == WriteTestClass(env, Trim(rawName, Backslash), template, base, ctx, st)
  {
    match CheckClassName(rawName)
    case Err(e) => Err(e)
    case Ok(name) => Ok(WriteTestClass(env, name, template, base, ctx, st))
  }

  /** How a run of the command ends: a normal return or an exception. */
  datatype Outcome = Returned | Threw(failure: Failure)

  datatype Run = Run(outcome: Outcome, st: State)

  /** The two shared files, in the order the command creates them. */
  function InitSharedFiles(env: Collaborators, base: Path, ctx: Context, st: State): (r: State)
    ensures Extends(st.fs, r.fs)
    ensures st.log <= r.log
    ensures Exists(r.fs, PhpunitXmlPath(base)) && Exists(r.fs, BootstrapPath(base))
    ensures r.fs.files.Keys <= st.fs.files.Keys + {PhpunitXmlPath(base), BootstrapPath(base)}
    ensures r.fs.dirs <= st.fs.dirs + {Dirname(BootstrapPath(base))}
  {
    var st1 := InitPhpunitXml(env, PhpunitXmlPath(base), ctx, st);
    InitPhpunitBootstrap(env, BootstrapPath(base), ctx, st1)
  }

  /** The `initTestClass` call as a step of the run: a name error ends the run unchanged. */
  function TestClassStep(env: Collaborators, base: Path, ctx: Context,
                         rawName: string, template: string, st: State): (r: Run)
    ensures Extends(st.fs, r.st.fs)
    ensures st.log <= r.st.log
    ensures r.outcome.Threw? <==> CheckClassName(rawName).Err?
    ensures r.outcome.Threw? ==> r.outcome.failure != InvalidTestTemplate && r.st == st
  {
    match InitTestClass(env, rawName, template, base, ctx, st)
    case Err(e) => Run(Threw(e), st)
    case Ok(st') => Run(Returned, st')
  }

  /**
   * `getTestTemplate` is evaluated as an argument of the `initTestClass`
   * call, so an unknown keyword raises before `initTestClass` runs.
   */
  function TemplateThenTestClass(env: Collaborators, base: Path, ctx: Context,
                                 rawName: string, keyword: string, st: State): (r: Run)
    ensures Extends(st.fs, r.st.fs)
    ensures st.log <= r.st.log
    ensures r.outcome == Threw(InvalidTestTemplate) <==> TestTemplate(keyword).Err?
    ensures (r.outcome.Threw? && r.outcome.failure != InvalidTestTemplate)
        <==> TestTemplate(keyword).Ok? && CheckClassName(rawName).Err?
    ensures r.outcome.Threw? ==> r.st == st
  {
    match TestTemplate(keyword)
    case Err(e) => Run(Threw(e), st)
    case Ok(template) => TestClassStep(env, base, ctx, rawName, template, st)
  }

  /**
   * `execute`: the extension type check, then `phpunit.xml.dist`, then the
   * bootstrap, then the template lookup and the test class.
   */
  function Execute(env: Collaborators, extType: string, base: Path, ctx: Context,
                   rawName: string, keyword: string, st: State): (r: Run)
    ensures extType != ModuleType ==> r == Run(Returned, State(st.fs, st.log + [WrongType(extType)]))
    ensures Extends(st.fs, r.st.fs)
    ensures st.log <= r.st.log
    ensures r.outcome == Threw(InvalidTestTemplate)
        <==> extType == ModuleType && TestTemplate(keyword).Err?
    ensures (r.outcome.Threw? && r.outcome.failure != InvalidTestTemplate)
        <==> extType == ModuleType && TestTemplate(keyword).Ok? && CheckClassName(rawName).Err?
    ensures r.outcome.Threw? ==> r.st == InitSharedFiles(env, base, ctx, st)
    ensures extType == ModuleType ==>
      Exists(r.st.fs, PhpunitXmlPath(base)) && Exists(r.st.fs, BootstrapPath(base))
  {
    if extType != ModuleType then
      Run(Returned, State(st.fs, st.log + [WrongType(extType)]))
    else
      TemplateThenTestClass(env, base, ctx, rawName, keyword, InitSharedFiles(env, base, ctx, st))
  }

  /**
   * A run, from any state, adds no file but the three outputs and no
   * directory but the bootstrap's and the test file's.
   */
  lemma RunAddsOnlyOutputs(env: Collaborators, extType: string, base: Path, ctx: Context,
                           rawName: string, keyword: string, st: State)
    ensures
      var r := Execute(env, extType, base, ctx, rawName, keyword, st);
      var test := TestPath(base, Trim(rawName, Backslash));
      && r.st.fs.files.Keys <= st.fs.files.Keys + {PhpunitXmlPath(base), BootstrapPath(base), test}
      && r.st.fs.dirs <= st.fs.dirs + {Dirname(BootstrapPath(base)), Dirname(test)}
  {
    if extType == ModuleType {
      var r := Execute(env, extType, base, ctx, rawName, keyword, st);
      var shared := InitSharedFiles(env, base, ctx, st);
      if TestTemplate(keyword).Ok? && CheckClassName(rawName).Ok? {
        ExecuteAccepted(env, base, ctx, rawName, keyword, st);
        var name := Trim(rawName, Backslash);
        var w := WriteTestClass(env, name, TestTemplate(keyword).value, base, ctx, shared);
        assert r.st == w;
        assert w.fs.files.Keys <= shared.fs.files.Keys + {TestPath(base, name)};
      } else {
        assert r.st == shared;
      }
    }
  }

  /** `phpunit.xml.dist`, the bootstrap and any accepted test class are three different paths. */
  lemma OutputPathsDistinct(base: Path, name: string)
    requires ValidClassName(name)
    ensures PhpunitXmlPath(base) != BootstrapPath(base)
    ensures TestPath(base, name) != PhpunitXmlPath(base)
    ensures TestPath(base, name) != BootstrapPath(base)
  {
    var f := TestFile(name);
    JoinOne(base, "phpunit.xml.dist");
    JoinThree(base, "tests", "phpunit", "bootstrap.php");
    JoinThree(base, "tests", "phpunit", f);
    var n := |base| + 1;
    assert PhpunitXmlPath(base)[n] == 'p';
    assert BootstrapPath(base)[n] == 't' && TestPath(base, name)[n] == 't';
    if |f| == |"bootstrap.php"| {
      assert name[|name| - 4] == 'T';
      assert f[5] == 'T';
      assert TestPath(base, name)[n + 14 + 5] != BootstrapPath(base)[n + 14 + 5];
    }
  }

  /** The bootstrap's directory is `tests/phpunit`, shorter than any test file path. */
  lemma BootstrapDirShorterThanTests(base: Path, name: string)
    ensures Dirname(BootstrapPath(base)) == Join(base, ["tests", "phpunit"])
    ensures |Dirname(BootstrapPath(base))| < |TestPath(base, name)|
  {
    JoinThree(base, "tests", "phpunit", "bootstrap.php");
    JoinLast(base, ["tests", "phpunit"]);
    JoinOne(base, "tests");
    assert ["tests", "phpunit"][..1] == ["tests"];
    var d := Join(base, ["tests", "phpunit"]);
    assert d == base + [Slash] + "tests" + [Slash] + "phpunit";
    assert BootstrapPath(base) == d + [Slash] + "bootstrap.php";
    assert d[|d| - 1] == 't';
    DirnameOfChild(d, "bootstrap.php");
    JoinThree(base, "tests", "phpunit", TestFile(name));
  }

  /** On an extension holding neither shared file, both are written, in order. */
  lemma SharedFilesFresh(env: Collaborators, base: Path, ctx: Context, st: State)
    requires !Exists(st.fs, PhpunitXmlPath(base)) && !Exists(st.fs, BootstrapPath(base))
    ensures
      var s := InitSharedFiles(env, base, ctx, st);
      && s.fs.files.Keys == st.fs.files.Keys + {PhpunitXmlPath(base), BootstrapPath(base)}
      && s.fs.dirs == st.fs.dirs + {Dirname(BootstrapPath(base))}
      && s.log == st.log + [Wrote(PhpunitXmlPath(base)), Wrote(BootstrapPath(base))]
  {
    OutputPathsDistinct(base, "Test");
    var st1 := InitPhpunitXml(env, PhpunitXmlPath(base), ctx, st);
    assert !Exists(st1.fs, BootstrapPath(base));
  }

  /** A module run whose template and name are accepted returns the test step's state. */
  lemma ExecuteAccepted(env: Collaborators, base: Path, ctx: Context,
                        rawName: string, keyword: string, st: State)
    requires TestTemplate(keyword).Ok? && CheckClassName(rawName).Ok?
    ensures
      var shared := InitSharedFiles(env, base, ctx, st);
      var t := InitTestClass(env, rawName, TestTemplate(keyword).value, base, ctx, shared);
      && t.Ok?
      && Execute(env, ModuleType, base, ctx, rawName, keyword, st) == Run(Returned, t.value)
  {
  }

  /** A run that returns normally on a module leaves the test file and its directory in place. */
  lemma ReturnedRunLeavesTestFile(env: Collaborators, base: Path, ctx: Context,
                                  rawName: string, keyword: string, st: State)
    ensures
      var r := Execute(env, ModuleType, base, ctx, rawName, keyword, st);
      var test := TestPath(base, Trim(rawName, Backslash));
      r.outcome == Returned ==>
        && ValidClassName(Trim(rawName, Backslash))
        && Exists(r.st.fs, test)
        && Dirname(test) in r.st.fs.dirs
  {
    if TestTemplate(keyword).Ok? && CheckClassName(rawName).Ok? {
      ExecuteAccepted(env, base, ctx, rawName, keyword, st);
    }
  }

  /** The test step on a state without the test file adds exactly that file and one Write line. */
  lemma TestClassFresh(env: Collaborators, rawName: string, template: string, base: Path,
                       ctx: Context, st: State)
    requires CheckClassName(rawName).Ok?
    requires !Exists(st.fs, TestPath(base, Trim(rawName, Backslash)))
    ensures
      var t := InitTestClass(env, rawName, template, base, ctx, st);
      var test := TestPath(base, Trim(rawName, Backslash));
      && t.Ok?
      && t.value.fs.files.Keys == st.fs.files.Keys + {test}
      && t.value.log == st.log + [Wrote(test)]
  {
  }

  /**
   * A run on an extension holding none of the three files writes all three,
   * in order, with one Write line each.
   */
  lemma FirstRunCreatesAll(env: Collaborators, base: Path, ctx: Context,
                           rawName: string, keyword: string, st: State)
    requires TestTemplate(keyword).Ok? && CheckClassName(rawName).Ok?
    requires !Exists(st.fs, PhpunitXmlPath(base)) && !Exists(st.fs, BootstrapPath(base))
    requires !Exists(st.fs, TestPath(base, Trim(rawName, Backslash)))
    ensures
      var r := Execute(env, ModuleType, base, ctx, rawName, keyword, st);
      var test := TestPath(base, Trim(rawName, Backslash));
      && r.outcome == Returned
      && r.st.fs.files.Keys == st.fs.files.Keys + {PhpunitXmlPath(base), BootstrapPath(base), test}
      && r.st.log == st.log + [Wrote(PhpunitXmlPath(base)), Wrote(BootstrapPath(base)), Wrote(test)]
  {
    var name := Trim(rawName, Backslash);
    var test := TestPath(base, name);
    OutputPathsDistinct(base, name);
    BootstrapDirShorterThanTests(base, name);
    SharedFilesFresh(env, base, ctx, st);
    var shared := InitSharedFiles(env, base, ctx, st);
    assert !Exists(shared.fs, test);
    var t := InitTestClass(env, rawName, TestTemplate(keyword).value, base, ctx, shared);
    TestClassFresh(env, rawName, TestTemplate(keyword).value, base, ctx, shared);
    ExecuteAccepted(env, base, ctx, rawName, keyword, st);
    var r := Execute(env, ModuleType, base, ctx, rawName, keyword, st);
    assert r.st == t.value;
    LogAppend(st.log, Wrote(PhpunitXmlPath(base)), Wrote(BootstrapPath(base)), Wrote(test));
  }

  /** Appending two lines and then a third is appending all three. */
  lemma LogAppend(log: seq<Line>, a: Line, b: Line, c: Line)
    ensures (log + [a, b]) + [c] == log + [a, b, c]
  {
  }

  /** What a repeated run reports: nothing but skips (or the same type error). */
  function RepeatReport(extType: string, base: Path, rawName: string, first: Outcome): seq<Line>
  {
    if extType != ModuleType then [WrongType(extType)]
    else
      var shared := [Skipped(Comment, PhpunitXmlPath(base)), Skipped(Comment, BootstrapPath(base))];
      if first.Threw? then shared
      else shared + [Skipped(Error, TestPath(base, Trim(rawName, Backslash)))]
  }

  /** Running the shared steps on a state they already produced only reports skips. */
  lemma SharedFilesRepeat(env: Collaborators, base: Path, ctx: Context, st: State)
    requires Exists(st.fs, PhpunitXmlPath(base)) && Exists(st.fs, BootstrapPath(base))
    ensures InitSharedFiles(env, base, ctx, st)
         == State(st.fs, st.log + [Skipped(Comment, PhpunitXmlPath(base)), Skipped(Comment, BootstrapPath(base))])
  {
  }

  /**
   * Running the command a second time with the same arguments writes no
   * file, creates no directory, ends the same way and only reports skips.
   */
  lemma SecondRunChangesNothing(env: Collaborators, extType: string, base: Path, ctx: Context,
                                rawName: string, keyword: string, st: State)
    ensures
      var r1 := Execute(env, extType, base, ctx, rawName, keyword, st);
      var r2 := Execute(env, extType, base, ctx, rawName, keyword, r1.st);
      && r2.outcome == r1.outcome
      && r2.st.fs == r1.st.fs
      && r2.st.log == r1.st.log + RepeatReport(extType, base, rawName, r1.outcome)
  {
    var r1 := Execute(env, extType, base, ctx, rawName, keyword, st);
    if extType == ModuleType {
      SharedFilesRepeat(env, base, ctx, r1.st);
    }
  }
}

=== FILE: class_names.dfy ===
/**
 * The fully qualified test class name given on the command line: its
 * validation, its split into namespace and short class name, and the file it
 * maps to under `tests/phpunit`.
 */
module ClassNames {
  import opened Results
  import opened PhpStrings

  /** The PHP namespace separator. */
  const Backslash: char := '\\'

  /** Every test class name must end with this word. */
  const RequiredSuffix: string := "Test"

  /** A member of the character class `[A-Za-z0-9_\\]`. */
  predicate IsClassChar(ch: char)
  {
    ('A' <= ch <= 'Z') || ('a' <= ch <= 'z') || ('0' <= ch <= '9') || ch == '_' || ch == Backslash
  }

  /** `/^[A-Za-z0-9_\\]+$/`, read as an exact whole-string test. */
  predicate MatchesClassPattern(t: string)
  {
    |t| > 0 && forall i :: 0 <= i < |t| ==> IsClassChar(t[i])
  }

  /** What the command accepts, once the name is trimmed of backslashes. */
  predicate ValidClassName(t: string)
  {
    MatchesClassPattern(t) && EndsWith(t, RequiredSuffix)
  }

  /**
   * Trims the raw name of leading and trailing backslashes, then checks the
   * character class and then the suffix, raising the first failure.
   */
  function CheckClassName(raw: string): (r: Result<string, Failure>)
    ensures r.Ok? <==> ValidClassName(Trim(raw, Backslash))
    ensures r.Err? ==> r.error == ClassNameNotAlphanumeric || r.error == ClassNameWithoutTestSuffix
    ensures r.Ok? ==> r.value == Trim(raw, Backslash)
    ensures r.Ok? ==> Backslash != r.value[0] && Backslash != r.value[|r.value| - 1]
    ensures r == Err(ClassNameNotAlphanumeric)
        <==> (|Trim(raw, Backslash)| == 0
              || exists i :: 0 <= i < |Trim(raw, Backslash)| && !IsClassChar(Trim(raw, Backslash)[i]))
    ensures r == Err(ClassNameWithoutTestSuffix)
        <==> (&& |Trim(raw, Backslash)| > 0
              && (forall i :: 0 <= i < |Trim(raw, Backslash)| ==> IsClassChar(Trim(raw, Backslash)[i]))
              && !EndsWith(Trim(raw, Backslash), RequiredSuffix))
  {
    var t := Trim(raw, Backslash);
    assert exists i :: TrimmedAt(raw, t, Backslash, i);
    if !MatchesClassPattern(t) then Err(ClassNameNotAlphanumeric)
    else if !EndsWith(t, RequiredSuffix) then Err(ClassNameWithoutTestSuffix)
    else Ok(t)
  }

  /** The namespace (`testNamespace`) and short class name (`testClass`) of a test class. */
  datatype ClassParts = ClassParts(testNamespace: string, testClass: string)

  /**
   * `explode` on backslashes, `array_pop` for the class name and `implode`
   * of the rest for the namespace.
   */
  function SplitClassName(name: string): (r: ClassParts)
    ensures Backslash !in r.testClass
    ensures Backslash in name ==> r.testNamespace + [Backslash] + r.testClass == name
    ensures Backslash !in name ==> r.testNamespace == "" && r.testClass == name
  {
    var parts := Explode(Backslash, name);
    var n := |parts|;
    ImplodeExplode(Backslash, name);
    var r := ClassParts(Implode(Backslash, parts[..n - 1]), parts[n - 1]);
    if n >= 2 then ImplodeSnoc(Backslash, parts); r else r
  }

  /** Splitting a name at a backslash with no backslash after it has only one answer. */
  lemma LastSeparatorUnique(a: string, b: string, c: string, d: string)
    requires Backslash !in b && Backslash !in d
    requires a + [Backslash] + b == c + [Backslash] + d
    ensures a == c && b == d
  {
    var s := a + [Backslash] + b;
    assert s[|a|] == Backslash && s[|c|] == Backslash;
    assert forall k :: |a| < k < |s| ==> s[k] == b[k - |a| - 1];
    assert forall k :: |c| < k < |s| ==> s[k] == d[k - |c| - 1];
    assert |a| == |c|;
    assert b == s[|s| - |b|..] == d;
    assert a == s[..|a|] == c;
  }

  /** A namespace and a short name joined by a backslash split back into the same two parts. */
  lemma SplitJoined(ns: string, cls: string)
    requires Backslash !in cls
    ensures SplitClassName(ns + [Backslash] + cls) == ClassParts(ns, cls)
  {
    var r := SplitClassName(ns + [Backslash] + cls);
    assert Backslash in ns + [Backslash] + cls by {
      assert (ns + [Backslash] + cls)[|ns|] == Backslash;
    }
    LastSeparatorUnique(r.testNamespace, r.testClass, ns, cls);
  }

  /** A suffix without a backslash lies wholly after the last backslash of a name. */
  lemma SuffixAfterSeparator(ns: string, cls: string, suffix: string)
    requires Backslash !in suffix
    requires EndsWith(ns + [Backslash] + cls, suffix)
    ensures EndsWith(cls, suffix)
  {
    var name := ns + [Backslash] + cls;
    var n, m := |name|, |ns|;
    assert name[m] == Backslash;
    assert forall k :: n - |suffix| <= k < n ==> name[k] == suffix[k - (n - |suffix|)];
    assert m < n - |suffix|;
    assert cls == name[m + 1..];
    assert cls[|cls| - |suffix|..] == name[n - |suffix|..];
  }

  /** The short class name of an accepted name keeps the required suffix. */
  lemma SplitKeepsSuffix(name: string)
    requires ValidClassName(name)
    ensures EndsWith(SplitClassName(name).testClass, RequiredSuffix)
  {
    var p := SplitClassName(name);
    if Backslash in name {
      SuffixAfterSeparator(p.testNamespace, p.testClass, RequiredSuffix);
    }
  }

  /** The path separator both `_` and `\` turn into. */
  function PathChar(ch: char): char
  {
    if ch == '_' || ch == Backslash then '/' else ch
  }

  /**
   * `strtr($name, ['_' => '/', '\\' => '/']) . '.php'`: the test file,
   * relative to `tests/phpunit`.
   */
  function TestFile(name: string): (f: string)
    ensures |f| == |name| + 4
    ensures EndsWith(f, ".php")
    ensures forall i {:trigger f[i]} :: 0 <= i < |f| ==> f[i] != '_' && f[i] != Backslash
    ensures forall i {:trigger f[i]} :: 0 <= i < |name| ==>
      f[i] == (if name[i] == '_' || name[i] == Backslash then '/' else name[i])
  {
    seq(|name|, i requires 0 <= i < |name| => PathChar(name[i])) + ".php"
  }

  /** `a` and `b` agree except where both hold a separator (`_` or `\`). */
  predicate SameUpToSeparators(a: string, b: string)
  {
    |a| == |b| && forall i :: 0 <= i < |a| ==> PathChar(a[i]) == PathChar(b[i]) && (a[i] == b[i] || PathChar(a[i]) == '/')
  }

  /**
   * Two class names without `/` share a test file exactly when they differ
   * only in their choice of separators.
   */
  lemma TestFileCollision(a: string, b: string)
    requires '/' !in a && '/' !in b
    ensures TestFile(a) == TestFile(b) <==> SameUpToSeparators(a, b)
  {
    if TestFile(a) == TestFile(b) {
      forall i | 0 <= i < |a|
        ensures PathChar(a[i]) == PathChar(b[i]) && (a[i] == b[i] || PathChar(a[i]) == '/')
      {
        assert TestFile(a)[i] == TestFile(b)[i];
      }
    }
    if SameUpToSeparators(a, b) {
      assert TestFile(a) == TestFile(b);
    }
  }
}

=== FILE: paths.dfy ===
/**
 * File paths as strings: `Path::string()` joining a base directory with
 * segments, and PHP's `dirname()` on POSIX paths.
 */
module Paths {
  import opened PhpStrings

  const Slash: char := '/'

  /** `(new Path($base))->string($segments...)`: the base and the segments joined with `/`. */
  function Join(base: string, segments: seq<string>): string
  {
    Implode(Slash, [base] + segments)
  }

  /** Joining one more segment appends a slash and that segment. */
  lemma JoinLast(base: string, segments: seq<string>)
    requires |segments| >= 1
    ensures Join(base, segments)
         == Join(base, segments[..|segments| - 1]) + [Slash] + segments[|segments| - 1]
  {
    var all := [base] + segments;
    ImplodeSnoc(Slash, all);
    assert all[..|all| - 1] == [base] + segments[..|segments| - 1];
  }

  /** A single segment is appended after one slash. */
  lemma JoinOne(base: string, a: string)
    ensures Join(base, [a]) == base + [Slash] + a
  {
    JoinLast(base, [a]);
    assert [a][..0] == [];
  }

  /** Three segments are appended, each after its own slash. */
  lemma JoinThree(base: string, a: string, b: string, c: string)
    ensures Join(base, [a, b, c]) == base + [Slash] + a + [Slash] + b + [Slash] + c
  {
    JoinLast(base, [a, b, c]);
    assert [a, b, c][..2] == [a, b];
    JoinLast(base, [a, b]);
    assert [a, b][..1] == [a];
    JoinOne(base, a);
  }

  /** Drops the trailing run of characters other than `/` (the file name). */
  function StripName(s: string): (r: string)
    ensures |r| <= |s| && r == s[..|r|]
    ensures forall k :: |r| <= k < |s| ==> s[k] != Slash
    ensures |r| > 0 ==> r[|r| - 1] == Slash
    decreases |s|
  {
    if |s| > 0 && s[|s| - 1] != Slash then StripName(s[..|s| - 1]) else s
  }

  /**
   * PHP's `dirname($p)` on POSIX: strip trailing slashes, then the last
   * name, then the slashes before it; `/` when only slashes remain and `.`
   * when there was no slash at all.
   */
  function Dirname(p: string): (r: string)
    ensures r == "." || (|r| <= |p| && r == p[..|r|])
    ensures |p| > 0 ==> |r| > 0
    ensures |p| > 0 && Slash !in p ==> r == "."
  {
    if |p| == 0 then ""
    else
      var a := TrimRight(p, Slash);
      if |a| == 0 then "/"
      else
        var b := StripName(a);
        if |b| == 0 then "."
        else
          var d := TrimRight(b, Slash);
          if |d| == 0 then "/" else d
  }

  /** The directory of `d/leaf` is `d`, for a plain leaf name and a `d` without a trailing slash. */
  lemma DirnameOfChild(d: string, leaf: string)
    requires |d| > 0 && d[|d| - 1] != Slash
    requires |leaf| > 0 && Slash !in leaf
    ensures Dirname(d + [Slash] + leaf) == d
  {
    var p := d + [Slash] + leaf;
    assert p[|p| - 1] == leaf[|leaf| - 1];
    assert TrimRight(p, Slash) == p;
    var b := StripName(p);
    assert p[|d|] == Slash;
    assert forall k :: |d| < k < |p| ==> p[k] == leaf[k - |d| - 1];
    assert |b| == |d| + 1;
    assert b == d + [Slash];
    assert b[..|b| - 1] == d;
  }

  /** Trailing slashes after a character other than a slash are all that `TrimRight` removes. */
  lemma {:induction false} TrimRightSlashes(x: string, s: string)
    requires |x| > 0 && x[|x| - 1] != Slash
    requires AllChar(s, Slash)
    ensures TrimRight(x + s, Slash) == x
    decreases |s|
  {
    if |s| == 0 {
      assert x + s == x;
    } else {
      var p := x + s;
      assert p[|p| - 1] == s[|s| - 1] == Slash;
      assert p[..|p| - 1] == x + s[..|s| - 1];
      TrimRightSlashes(x, s[..|s| - 1]);
    }
  }

  /** Stripping the name off `y + leaf`, where `y` ends in a slash, leaves `y`. */
  lemma StripNameLeaf(y: string, leaf: string)
    requires |y| > 0 && y[|y| - 1] == Slash
    requires Slash !in leaf
    ensures StripName(y + leaf) == y
  {
    var p := y + leaf;
    var r := StripName(p);
    assert p[|y| - 1] == Slash;
    assert forall k :: |y| <= k < |p| ==> p[k] == leaf[k - |y|];
    assert |r| == |y|;
    assert r == p[..|y|] == y;
  }

  /**
   * The directory of `d`, a run of slashes, a plain leaf name and possibly
   * more slashes is `d`, for a `d` without a trailing slash.
   */
  lemma DirnameOfChildRuns(d: string, s1: string, leaf: string, s2: string)
    requires |d| > 0 && d[|d| - 1] != Slash
    requires |s1| > 0 && AllChar(s1, Slash) && AllChar(s2, Slash)
    requires |leaf| > 0 && Slash !in leaf
    ensures Dirname(d + s1 + leaf + s2) == d
  {
    var x := d + s1 + leaf;
    assert x[|x| - 1] == leaf[|leaf| - 1];
    TrimRightSlashes(x, s2);
    var y := d + s1;
    assert y[|y| - 1] == s1[|s1| - 1];
    assert x == y + leaf;
    StripNameLeaf(y, leaf);
    TrimRightSlashes(d, s1);
  }

  /** A path with a slash that does not end in one has a strictly shorter directory. */
  lemma DirnameShorter(p: string)
    requires Slash in p && p[|p| - 1] != Slash
    ensures |Dirname(p)| < |p|
  {
    assert TrimRight(p, Slash) == p;
    var b := StripName(p);
    assert |b| > 0;
  }
}

=== FILE: php_strings.dfy ===
/**
 * The PHP string built-ins the command relies on, over `seq<char>`:
 * `trim` with a one-character list, suffix matching, `explode` and `implode`
 * with a one-character delimiter.
 */
module PhpStrings {

  /** Every character of `s` is `c`. */
  predicate AllChar(s: string, c: char)
  {
    forall i :: 0 <= i < |s| ==> s[i] == c
  }

  /** `s` ends with `suffix` (an exact test, no special meaning for a final newline). */
  predicate EndsWith(s: string, suffix: string)
  {
    |suffix| <= |s| && s[|s| - |suffix|..] == suffix
  }

  /** Drops the leading copies of `c`: the left half of `trim($s, $c)`. */
  function TrimLeft(s: string, c: char): (r: string)
    ensures |r| <= |s| && r == s[|s| - |r|..]
    ensures AllChar(s[..|s| - |r|], c)
    ensures |r| > 0 ==> r[0] != c
    decreases |s|
  {
    if |s| > 0 && s[0] == c then
      var r := TrimLeft(s[1..], c);
      assert s[..|s| - |r|] == [c] + s[1..][..|s| - 1 - |r|];
      r
    else
      s
  }

  /** Drops the trailing copies of `c`: the right half of `trim($s, $c)`. */
  function TrimRight(s: string, c: char): (r: string)
    ensures |r| <= |s| && r == s[..|r|]
    ensures AllChar(s[|r|..], c)
    ensures |r| > 0 ==> r[|r| - 1] != c
    decreases |s|
  {
    if |s| > 0 && s[|s| - 1] == c then
      var r := TrimRight(s[..|s| - 1], c);
      assert s[|r|..] == s[..|s| - 1][|r|..] + [c];
      r
    else
      s
  }

  /**
   * `r` is the slice of `s` starting at `i` that is bordered only by copies
   * of `c` and neither starts nor ends with `c` itself.
   */
  ghost predicate TrimmedAt(s: string, r: string, c: char, i: int)
  {
    && 0 <= i <= |s| - |r|
    && r == s[i..i + |r|]
    && (forall k :: 0 <= k < i ==> s[k] == c)
    && (forall k :: i + |r| <= k < |s| ==> s[k] == c)
    && (|r| > 0 ==> s[i] != c && s[i + |r| - 1] != c)
  }

  /** `r` is what is left of `s` once every leading and every trailing `c` is removed. */
  ghost predicate TrimmedOf(s: string, r: string, c: char)
  {
    exists i :: TrimmedAt(s, r, c, i)
  }

  /** A left trim followed by a right trim leaves a trimming of the original string. */
  lemma TrimmedAtBothEnds(s: string, l: string, r: string, c: char)
    requires |l| <= |s| && l == s[|s| - |l|..] && AllChar(s[..|s| - |l|], c)
    requires |l| > 0 ==> l[0] != c
    requires |r| <= |l| && r == l[..|r|] && AllChar(l[|r|..], c)
    requires |r| > 0 ==> r[|r| - 1] != c
    ensures TrimmedAt(s, r, c, |s| - |l|)
  {
    var i := |s| - |l|;
    assert r == s[i..i + |r|];
    assert forall k :: 0 <= k < i ==> s[k] == s[..i][k];
    assert forall k :: i + |r| <= k < |s| ==> s[k] == l[|r|..][k - i - |r|];
  }

  /** PHP's `trim($s, $c)` for a one-character list `$c`. */
  function Trim(s: string, c: char): (r: string)
    ensures TrimmedOf(s, r, c)
  {
    var l := TrimLeft(s, c);
    var r := TrimRight(l, c);
    TrimmedAtBothEnds(s, l, r, c);
    r
  }

  /** Two trimmings of the same string start at the same place and have the same length. */
  lemma TrimmedAtUnique(s: string, r1: string, i1: int, r2: string, i2: int, c: char)
    requires TrimmedAt(s, r1, c, i1) && TrimmedAt(s, r2, c, i2)
    ensures r1 == r2
  {
    if |r1| > 0 && |r2| > 0 {
      assert i1 == i2;
      assert i1 + |r1| == i2 + |r2|;
    }
  }

  /** There is only one way to trim a string: `TrimmedOf` determines its result. */
  lemma TrimmedOfUnique(s: string, r1: string, r2: string, c: char)
    requires TrimmedOf(s, r1, c) && TrimmedOf(s, r2, c)
    ensures r1 == r2
  {
    var i1 :| TrimmedAt(s, r1, c, i1);
    var i2 :| TrimmedAt(s, r2, c, i2);
    TrimmedAtUnique(s, r1, i1, r2, i2, c);
  }

  /** `Trim` returns exactly the string `TrimmedOf` describes, and no other. */
  lemma TrimCharacterized(s: string, r: string, c: char)
    ensures Trim(s, c) == r <==> TrimmedOf(s, r, c)
  {
    if TrimmedOf(s, r, c) {
      TrimmedOfUnique(s, Trim(s, c), r, c);
    }
  }

  /** Trimming twice is trimming once. */
  lemma TrimIdempotent(s: string, c: char)
    ensures Trim(Trim(s, c), c) == Trim(s, c)
  {
    var t := Trim(s, c);
    var i :| TrimmedAt(s, t, c, i);
    assert TrimmedAt(t, t, c, 0);
    TrimmedOfUnique(t, Trim(t, c), t, c);
  }

  /** The position of the first `sep` in `s`, or `|s|` when there is none. */
  function IndexOf(sep: char, s: string): (i: nat)
    ensures i <= |s|
    ensures i < |s| ==> s[i] == sep
    ensures sep !in s[..i]
    decreases |s|
  {
    if |s| == 0 || s[0] == sep then 0
    else
      var i := 1 + IndexOf(sep, s[1..]);
      assert s[..i] == [s[0]] + s[1..][..i - 1];
      i
  }

  /**
   * `explode($sep, $s)`: the pieces of `s` between occurrences of `sep`.
   * Never empty; an empty `s` gives one empty piece.
   */
  function Explode(sep: char, s: string): (parts: seq<string>)
    ensures |parts| >= 1
    ensures forall k :: 0 <= k < |parts| ==> sep !in parts[k]
    ensures sep in s <==> |parts| >= 2
    decreases |s|
  {
    var i := IndexOf(sep, s);
    if i == |s| then
      assert s[..i] == s;
      [s]
    else
      [s[..i]] + Explode(sep, s[i + 1..])
  }

  /** `implode($sep, $parts)`: the pieces joined with `sep` between neighbours. */
  function Implode(sep: char, parts: seq<string>): string
  {
    if |parts| == 0 then ""
    else if |parts| == 1 then parts[0]
    else parts[0] + [sep] + Implode(sep, parts[1..])
  }

  /** Joining the pieces of a string gives the string back. */
  lemma {:induction false} ImplodeExplode(sep: char, s: string)
    ensures Implode(sep, Explode(sep, s)) == s
    decreases |s|
  {
    var i := IndexOf(sep, s);
    if i < |s| {
      var rest := Explode(sep, s[i + 1..]);
      ImplodeExplode(sep, s[i + 1..]);
      assert ([s[..i]] + rest)[1..] == rest;
      assert s == s[..i] + [sep] + s[i + 1..];
    } else {
      assert s[..i] == s;
    }
  }

  /** A string without the delimiter explodes into itself alone. */
  lemma ExplodeWithoutSep(sep: char, s: string)
    requires sep !in s
    ensures Explode(sep, s) == [s]
  {
  }

  /** A delimiter-free piece followed by the delimiter is split off as the first piece. */
  lemma ExplodePiece(sep: char, p: string, t: string)
    requires sep !in p
    ensures Explode(sep, p + [sep] + t) == [p] + Explode(sep, t)
  {
    var s := p + [sep] + t;
    var i := IndexOf(sep, s);
    assert s[..|p|] == p;
    assert forall k :: 0 <= k < |p| ==> s[k] == p[k];
    assert s[|p|] == sep;
    assert i <= |p| ==> s[..i] == s[..|p|][..i];
    assert s[i + 1..] == t;
  }

  /** Exploding joined pieces gives the pieces back, when none holds the delimiter. */
  lemma {:induction false} ExplodeImplode(sep: char, parts: seq<string>)
    requires |parts| >= 1
    requires forall k :: 0 <= k < |parts| ==> sep !in parts[k]
    ensures Explode(sep, Implode(sep, parts)) == parts
    decreases |parts|
  {
    if |parts| == 1 {
      ExplodeWithoutSep(sep, parts[0]);
    } else {
      ExplodeImplode(sep, parts[1..]);
      ExplodePiece(sep, parts[0], Implode(sep, parts[1..]));
      assert [parts[0]] + parts[1..] == parts;
    }
  }

  /** Joining peels off the last piece together with the delimiter before it. */
  lemma {:induction false} ImplodeSnoc(sep: char, parts: seq<string>)
    requires |parts| >= 2
    ensures Implode(sep, parts) == Implode(sep, parts[..|parts| - 1]) + [sep] + parts[|parts| - 1]
    decreases |parts|
  {
    var n := |parts|;
    if n > 2 {
      ImplodeSnoc(sep, parts[1..]);
      assert parts[1..][..n - 2] == parts[..n - 1][1..];
    }
  }
}

=== FILE: results.dfy ===
/** Success/failure values and the exceptions `generate:test` can raise. */
module Results {

  /** The outcome of a step that either yields a value or raises. */
  datatype Result<+T, +E> = Ok(value: T) | Err(error: E)

  /** The three exceptions thrown by the command. */
  datatype Failure =
    | InvalidTestTemplate          // unknown `--template` keyword
    | ClassNameNotAlphanumeric     // a character outside [A-Za-z0-9_\], or the empty name
    | ClassNameWithoutTestSuffix   // the name does not end with "Test"

  /** The message each exception carries. */
  function Message(f: Failure): string
  {
    match f
    case InvalidTestTemplate => "Invalid test template"
    case ClassNameNotAlphanumeric => "Class name must be alphanumeric (with underscores and backslashes)"
    case ClassNameWithoutTestSuffix => "Class name must end with the word \"Test\""
  }
}

=== FILE: scenarios.dfy ===
/** Concrete runs of `generate:test` on a module extension at `/ext` that holds no files yet. */
module Scenarios {
  import opened Results
  import opened PhpStrings
  import opened Paths
  import opened ClassNames
  import opened Templates
  import opened Workspace
  import opened AddTest

  const Base: Path := "/ext"
  const XmlFile: Path := "/ext/phpunit.xml.dist"
  const BootDir: Path := "/ext/tests/phpunit"
  const BootFile: Path := "/ext/tests/phpunit/bootstrap.php"
  const Psr0Name: string := "CRM_Foo_BarTest"
  const Psr0File: Path := "/ext/tests/phpunit/CRM/Foo/BarTest.php"

  // The short lemmas marked "a literal fact" each evaluate one function on
  // one string constant. They exist only to split the solver's work: the
  // lemmas about whole runs call them instead of unfolding everything at once.

  /** The extension directory exists and holds no file. */
  const Fresh: State := State(FileSystem(map[], {Base}), [])

  lemma XmlPathAtBase()
    ensures PhpunitXmlPath(Base) == XmlFile
  {
    JoinOne(Base, "phpunit.xml.dist");
  }

  /** A file under `tests/phpunit` of `/ext` sits directly in `/ext/tests/phpunit`. */
  lemma UnderTestsDir(leaf: string)
    ensures Join(Base, ["tests", "phpunit", leaf]) == BootDir + [Slash] + leaf
  {
    JoinThree(Base, "tests", "phpunit", leaf);
    assert Base + [Slash] + "tests" + [Slash] + "phpunit" == BootDir;
  }

  /** A literal fact stated on its own so that each solver query stays small. */
  lemma BootstrapPathSplit()
    ensures "/ext/tests/phpunit/bootstrap.php" == "/ext/tests/phpunit" + [Slash] + "bootstrap.php"
  {
  }

  lemma BootstrapDir()
    ensures Dirname("/ext/tests/phpunit/bootstrap.php") == "/ext/tests/phpunit"
  {
    BootstrapPathSplit();
    DirnameOfChild("/ext/tests/phpunit", "bootstrap.php");
  }

  lemma BootstrapPathAtBase()
    ensures BootstrapPath(Base) == BootFile
    ensures Dirname(BootFile) == BootDir
  {
    UnderTestsDir("bootstrap.php");
    BootstrapPathSplit();
    BootstrapDir();
  }

  /** A literal fact stated on its own so that each solver query stays small. */
  lemma Psr0Trimmed()
    ensures Trim("CRM_Foo_BarTest", Backslash) == "CRM_Foo_BarTest"
  {
  }

  /** A literal fact stated on its own so that each solver query stays small. */
  lemma Psr0Characters()
    ensures MatchesClassPattern("CRM_Foo_BarTest")
  {
  }

  /** A literal fact stated on its own so that each solver query stays small. */
  lemma Psr0Suffix()
    ensures EndsWith("CRM_Foo_BarTest", "Test")
  {
  }

  lemma Psr0NameAccepted()
    ensures CheckClassName(Psr0Name) == Ok(Psr0Name)
  {
    Psr0Trimmed();
    Psr0Characters();
    Psr0Suffix();
  }

  /** A literal fact stated on its own so that each solver query stays small. */
  lemma Psr0FileName()
    ensures TestFile("CRM_Foo_BarTest") == "CRM/Foo/BarTest.php"
  {
  }

  /** A literal fact stated on its own so that each solver query stays small. */
  lemma Psr0HasNoBackslash()
    ensures Backslash !in "CRM_Foo_BarTest"
  {
  }

  /** A literal fact stated on its own so that each solver query stays small. */
  lemma Psr0PathSplit()
    ensures Psr0File == BootDir + [Slash] + "CRM/Foo/BarTest.php"
  {
  }

  /** The underscore-style name has no namespace and lives at `CRM/Foo/BarTest.php`. */
  lemma Psr0NameMapped()
    ensures SplitClassName(Psr0Name) == ClassParts("", Psr0Name)
    ensures TestPath(Base, Psr0Name) == Psr0File
  {
    Psr0HasNoBackslash();
    Psr0FileName();
    UnderTestsDir("CRM/Foo/BarTest.php");
    Psr0PathSplit();
  }

  /** A literal fact stated on its own so that each solver query stays small. */
  lemma NamespacedJoined()
    ensures "Civi\\Foo" + [Backslash] + "BarTest" == "Civi\\Foo\\BarTest"
  {
  }

  lemma NamespacedFile()
    ensures TestFile("Civi\\Foo\\BarTest") == "Civi/Foo/BarTest.php"
  {
  }

  /** A backslash-style name splits at its last backslash. */
  lemma NamespacedNameSplit()
    ensures SplitClassName("Civi\\Foo\\BarTest") == ClassParts("Civi\\Foo", "BarTest")
  {
    NamespacedJoined();
    SplitJoined("Civi\\Foo", "BarTest");
  }

  /** A literal fact stated on its own so that each solver query stays small. */
  lemma SpellingsSameUpToSeparators()
    ensures SameUpToSeparators("CRM_Foo_BarTest", "CRM\\Foo\\BarTest")
  {
  }

  /** The two spellings of the same class collide on one test file. */
  lemma SpellingsShareTestFile()
    ensures TestFile("CRM_Foo_BarTest") == TestFile("CRM\\Foo\\BarTest")
  {
    SpellingsSameUpToSeparators();
    TestFileCollision("CRM_Foo_BarTest", "CRM\\Foo\\BarTest");
  }

  /** A literal fact stated on its own so that each solver query stays small. */
  lemma WrappedTrimmedAt()
    ensures TrimmedAt("\\Civi\\FooTest\\", "Civi\\FooTest", Backslash, 1)
  {
  }

  /** A literal fact stated on its own so that each solver query stays small. */
  lemma WrappedInnerValid()
    ensures MatchesClassPattern("Civi\\FooTest") && EndsWith("Civi\\FooTest", "Test")
  {
  }

  /** Backslashes around the name are trimmed before anything else. */
  lemma SurroundingBackslashesIgnored()
    ensures CheckClassName("\\Civi\\FooTest\\") == Ok("Civi\\FooTest")
  {
    WrappedTrimmedAt();
    TrimCharacterized("\\Civi\\FooTest\\", "Civi\\FooTest", Backslash);
    WrappedInnerValid();
  }

  /** A literal fact stated on its own so that each solver query stays small. */
  lemma FooBarTrimmed()
    ensures Trim("FooBar", Backslash) == "FooBar"
  {
  }

  /** A literal fact stated on its own so that each solver query stays small. */
  lemma FooBarCharacters()
    ensures MatchesClassPattern("FooBar") && !EndsWith("FooBar", "Test")
  {
  }

  /** A name without the `Test` suffix is refused with the suffix message. */
  lemma MissingSuffixRefused()
    ensures CheckClassName("FooBar") == Err(ClassNameWithoutTestSuffix)
  {
    FooBarTrimmed();
    FooBarCharacters();
  }

  /** The shared files of a fresh run: both written, in order. */
  lemma FreshSharedFiles(env: Collaborators)
    ensures
      var s := InitSharedFiles(env, Base, map[], Fresh);
      && s.fs.files.Keys == {XmlFile, BootFile}
      && s.fs.dirs == {Base, BootDir}
      && s.log == [Wrote(XmlFile), Wrote(BootFile)]
  {
    XmlPathAtBase();
    BootstrapPathAtBase();
    assert !Exists(Fresh.fs, XmlFile) && !Exists(Fresh.fs, BootFile);
    SharedFilesFresh(env, Base, map[], Fresh);
  }

  /** A `report` extension is refused with one line and nothing on disk changes. */
  lemma ReportExtensionRefused(env: Collaborators)
    ensures
      var r := Execute(env, "report", Base, map[], Psr0Name, DefaultKeyword, Fresh);
      && r.outcome == Returned
      && r.st.fs == Fresh.fs
      && r.st.log == [WrongType("report")]
  {
  }

  /** `FooBar` aborts the run, but only after both shared files were written. */
  lemma BadNameAfterSharedFiles(env: Collaborators)
    ensures
      var r := Execute(env, ModuleType, Base, map[], "FooBar", DefaultKeyword, Fresh);
      && r.outcome == Threw(ClassNameWithoutTestSuffix)
      && r.st.fs.files.Keys == {XmlFile, BootFile}
      && r.st.log == [Wrote(XmlFile), Wrote(BootFile)]
  {
    FreshSharedFiles(env);
    MissingSuffixRefused();
    assert TestTemplate(DefaultKeyword).Ok?;
  }

  /** An unknown keyword aborts before the name is even looked at. */
  lemma UnknownTemplateBeforeName(env: Collaborators)
    ensures
      var r := Execute(env, ModuleType, Base, map[], "FooBar", "Headless", Fresh);
      && r.outcome == Threw(InvalidTestTemplate)
      && r.st.fs.files.Keys == {XmlFile, BootFile}
  {
    FreshSharedFiles(env);
  }
}

=== FILE: templates.dfy ===
/** The closed table of test templates behind `--template`. */
module Templates {
  import opened Results

  /** The keyword used when `--template` is not given. */
  const DefaultKeyword: string := "headless"

  /** Keyword to template file; there is no fallback entry. */
  const TestTemplates: map<string, string> := map[
    "e2e" := "test-e2e.php.php",
    "headless" := "test-headless.php.php",
    "legacy" := "test-legacy.php.php"
  ]

  /** Looks the keyword up exactly (no case folding) and raises on a miss. */
  function TestTemplate(keyword: string): (r: Result<string, Failure>)
    ensures r.Ok? <==> keyword == "e2e" || keyword == "headless" || keyword == "legacy"
    ensures r.Ok? ==> r.value == "test-" + keyword + ".php.php"
    ensures r.Err? ==> r.error == InvalidTestTemplate
  {
    if keyword in TestTemplates then Ok(TestTemplates[keyword]) else Err(InvalidTestTemplate)
  }

  /** Different keywords never select the same template. */
  lemma TestTemplateInjective(a: string, b: string)
    requires TestTemplate(a).Ok? && TestTemplate(a) == TestTemplate(b)
    ensures a == b
  {
    var ta := TestTemplate(a).value;
    assert ta[5..|ta| - 8] == a;
  }
}

=== FILE: workspace.dfy ===
/**
 * The abstract world the command acts on: a file system of files and
 * directories, and the console as an append-only list of report lines.
 */
module Workspace {

  type Path = string
  type Content = string

  /** Files with their contents, and the directories that exist. */
  datatype FileSystem = FileSystem(files: map<Path, Content>, dirs: set<Path>)

  /** PHP's `file_exists`: true for a file and for a directory alike. */
  predicate Exists(fs: FileSystem, p: Path)
  {
    p in fs.files || p in fs.dirs
  }

  /** `after` keeps every directory of `before` and every file with its content. */
  predicate Extends(before: FileSystem, after: FileSystem)
  {
    && before.dirs <= after.dirs
    && before.files.Keys <= after.files.Keys
    && (forall p :: p in before.files ==> after.files[p] == before.files[p])
  }

  /** `Dirs::save` for one directory: afterwards it exists. */
  function EnsureDir(fs: FileSystem, d: Path): (r: FileSystem)
    ensures Extends(fs, r) && r.files == fs.files
    ensures d in r.dirs
    ensures forall p :: p in r.dirs && p != d ==> p in fs.dirs
    ensures d in fs.dirs ==> r == fs
  {
    fs.(dirs := fs.dirs + {d})
  }

  /** `file_put_contents`: writes `content` at `p`. */
  function PutFile(fs: FileSystem, p: Path, content: Content): FileSystem
  {
    fs.(files := fs.files[p := content])
  }

  /** The severity tag of a skip line. */
  datatype Level = Comment | Error

  /** One line written to the console. */
  datatype Line =
    | WrongType(extType: string)
    | Wrote(path: Path)
    | Skipped(level: Level, path: Path)

  /** The console text of a line, tags included. */
  function Text(l: Line): string
  {
    match l
    case WrongType(t) => "<error>Wrong extension type: " + t + "</error>"
    case Wrote(p) => "<info>Write " + p + "</info>"
    case Skipped(Comment, p) => "<comment>Skip " + p + ": file already exists</comment>"
    case Skipped(Error, p) => "<error>Skip " + p + ": file already exists</error>"
  }

  /** The file system together with everything reported so far. */
  datatype State = State(fs: FileSystem, log: seq<Line>)
}
